=== FILE: README.md ===
# Exchange-rate managers, modelled in Dafny

This project models the per-venue rate lookup of the `exchange_rates`
service: `BinanceManager.get_exchange_rate` and
`KuCoinManager.get_exchange_rate` in `app/exchange_rates/utils/managers.py`,
with the shared `_get_symbol_exchange_rate` request helper and the exception
classes of `app/exchange_rates/utils/exceptions.py`.

Each manager builds a venue symbol from the two currency codes (Binance
concatenates them, KuCoin joins them with `-`), asks the venue for the
upper-cased symbol, and reads the reply:

- a price for the direct symbol is the rate;
- no price (Binance `price` missing, KuCoin `data` null) makes it ask once
  more for the inverted symbol and take the reciprocal of that price;
- the rate is quantized to four fractional digits, rounding half to even
  (the default decimal context);
- no price in either direction raises `PairNotFoundException`, whose message
  names the pair as given and the venue;
- a client error while reading a reply raises `ExchangeRequestException` at
  once, without trying the inverted symbol; an error of the GET itself
  escapes unwrapped, also at once.

The HTTP round trip is a parameter: a total function `fetch` from the
upper-cased symbol to the validated reply record, a client error while
reading the body, or a failure of the GET itself.
With it, each manager is a pure function returning an `Attempt`: the outcome
(a `Rate4`, or a `Failure`) together with the symbols asked for, in order.

Files:
- `results.dfy` — `Option` and `Result`.
- `exceptions.dfy` — the failure classes (the application's exceptions, the decimal trap and the unwrapped aiohttp error); `Failure.IsManagerException` mirrors the class hierarchy of `app/exchange_rates/utils/exceptions.py`, request and pair-not-found failures being `ManagerException`s.
- `schemes.dfy` — the Binance and KuCoin reply records, and the accessors `BinancePrice` (the `price` field) and `KuCoinPrice` (`data.price` when `data` is present) that read the price each one quotes.
- `text.dfy` — ASCII upper-casing of symbols.
- `decimals.dfy` — four-digit rates and round-half-even quantization.
- `managers.dfy` — symbols, request URLs, the request helper and both managers.
- `manager_properties.dfy` — properties relating several manager calls.

Behaviour of the code worth knowing, all kept in the model:
- A rate found through the inverted symbol at a price of 20000 or more is
  `0.0000`, since 1/p is then at most 0.00005 and rounds to zero
  (`ManagerProperties.InverseRateVanishes`).
- Only the presence of a price is read (Binance `price`, KuCoin `data`), so
  a reply without one leads to the inverted symbol whatever its `code`.
- Only an `aiohttp.ClientError` raised while reading the reply body is
  wrapped as `ExchangeRequestException`. An aiohttp error raised by the GET
  itself, as when the venue refuses the connection, is not caught: it
  escapes unwrapped, is not a `ManagerException`, and ends the lookup before
  the inverted symbol is tried (modelled as `AiohttpRequestError`). The
  "exchange not responding" wrapper thus does not cover a venue that does
  not answer at all.
- A zero inverse price is not a pair-not-found: `1 / Decimal(0)` trips
  `decimal.DivisionByZero`, modelled as the failure `DecimalDivisionByZero`,
  which is not a `ManagerException`.

The managers name the reply models `BinanceRateRequestResult` and
`KuCoinRateRequestResult`, but the schema module defines
`BinanceExchangeRequestResult` and `KuCoinExchangeRequestResult`. The model
uses its own reply records and depends on neither name.

## Model

| member | source | states |
|---|---|---|
| `Text.Upper` | app/exchange_rates/utils/managers.py:41 | The requested symbol has the same length as the given one, each character upper-cased, and no lower-case ASCII letter left. |
| `Text.UpperIdempotent` | app/exchange_rates/utils/managers.py:41 | Upper-casing an already upper-cased symbol changes nothing. |
| `Decimals.RoundHalfEven` | app/exchange_rates/utils/managers.py:83 | The result is the integer nearest the input, a tie going to the even neighbour. |
| `Decimals.RoundHalfEvenUnique` | app/exchange_rates/utils/managers.py:83 | Round-half-even has at most one answer, so the rounding is fully determined. |
| `Decimals.Quantize` | app/exchange_rates/utils/managers.py:83 | `quantize(Decimal("1.0000"))` yields a value with exactly four fractional digits, the half-even nearest one, within 0.00005 of the input. |
| `Decimals.QuantizeIdempotent` | app/exchange_rates/utils/managers.py:121 | Quantizing a value that already has four fractional digits returns it unchanged. |
| `Decimals.QuantizeMonotone` | app/exchange_rates/utils/managers.py:83 | A larger price never quantizes to a smaller rate. |
| `Decimals.QuantizeVanishes` | app/exchange_rates/utils/managers.py:121 | Every value from 0 to 0.00005 inclusive quantizes to 0.0000. |
| `Managers.RequestUrl` | app/exchange_rates/utils/managers.py:41 | The request URL is the venue's URL template with the upper-cased symbol in place of `%s`. |
| `Managers.RequestUrlKeyedBySymbol` | app/exchange_rates/utils/managers.py:41 | Two symbols give the same URL exactly when they upper-case alike, so venue answers keyed by upper-cased symbol lose nothing. |
| `Managers.FetchSymbol` | app/exchange_rates/utils/managers.py:29-48 | The venue is asked for the upper-cased symbol only; a reply comes back as is; a client error while reading the body becomes `ExchangeRequestException` with the "not responding" message; an error of the GET itself escapes unwrapped; the failure is a `ManagerException` (per `Failure.IsManagerException`) exactly in the body-read case. |
| `Managers.GetExchangeRate` | app/exchange_rates/utils/managers.py:58-124 | At most two lookups, the direct symbol first; the inverse is asked exactly when the direct reply has no price; a direct price p gives quantize(p), an inverse price p gives quantize(1/p) or the division trap when p is 0; pair-not-found exactly when neither reply has a price, with the pair named in the message; a body-read error ends the lookup as `ExchangeRequestException` and a GET error ends it unwrapped as `AiohttpRequestError`; every failure is a `ManagerException` (per `Failure.IsManagerException`), the decimal trap or that GET error. |
| `Managers.BinanceGetExchangeRate` | app/exchange_rates/utils/managers.py:58-86 | Reads replies through `BinancePrice`. Asks for `FROMTO` first and for `TOFROM` only when that reply has no `price`; a direct price is quantized, an inverse price is inverted then quantized; pair-not-found on Binance exactly when both replies lack a price; `ExchangeRequestException` exactly when the last request failed while reading its body, the unwrapped GET error exactly when its GET failed. |
| `Managers.KuCoinGetExchangeRate` | app/exchange_rates/utils/managers.py:96-124 | Reads replies through `KuCoinPrice`. Asks for `FROM-TO` first and for `TO-FROM` only when that reply has no `data`; the ticker price is quantized directly or inverted then quantized; pair-not-found on KuCoin exactly when both replies lack `data`; `ExchangeRequestException` exactly when the last request failed while reading its body, the unwrapped GET error exactly when its GET failed. |
| `ManagerProperties.SameQuotesSameVerdict` | app/exchange_rates/utils/managers.py:70-83 | Two lookups that read the same direct and inverse quotes make the same number of requests and reach the same rate or exception class, whatever the venue, codes or reply format. |
| `ManagerProperties.VenuesAgree` | app/exchange_rates/utils/managers.py:58-124 | When Binance and KuCoin answer alike for the direct and the inverted pair, the two managers make the same number of requests and return the same rate or raise the same exception class. |
| `ManagerProperties.CaseInsensitive` | app/exchange_rates/utils/managers.py:41 | Currency codes that upper-case alike make the same requests and reach the same rate or exception class. |
| `ManagerProperties.ReversedPair` | app/exchange_rates/utils/managers.py:72-80 | When a venue quotes only `b`/`a`, at a price p ≠ 0, asking b -> a gives quantize(p) in one request and a -> b gives quantize(1/p), its second request being that same symbol. |
| `ManagerProperties.InverseRateVanishes` | app/exchange_rates/utils/managers.py:76-83 | A rate found through the inverted symbol at a price of 20000 or more is 0.0000. |
| `ManagerProperties.KuCoinSymbolInjective` | app/exchange_rates/utils/managers.py:110 | When no code contains a dash, a KuCoin symbol determines both currency codes. |
| `ManagerProperties.BinanceSymbolAmbiguous` | app/exchange_rates/utils/managers.py:72 | Binance's concatenated symbol does not determine the pair: for any two splits a/b and c/d of the same concatenation, whenever that symbol is quoted at p, both pairs return quantize(p). |
| `ManagerProperties.BinanceSymbolSplits` | app/exchange_rates/utils/managers.py:72 | Distinct splits exist: BTC/USDT and BTCU/SDT concatenate to the same symbol. |
| `Managers.Symbol` | app/exchange_rates/utils/managers.py:72-115 | The symbol starts with the base code and ends with the quote code; Binance's is their concatenation, KuCoin's has one extra character, a dash right after the base. |
| `Managers.PairNotFoundMessage` | app/exchange_rates/utils/managers.py:84-86 | The message is the fixed "Exchange rate for conversion pair " text, the source code as given, " -> ", the target code as given, " not found on " and the venue name, each piece at its fixed position. |
| `Managers.PairNotFoundMessageNamesVenue` | app/exchange_rates/utils/managers.py:122-124 | Binance's and KuCoin's pair-not-found messages differ for every pair of codes. |

## Left out

- The aiohttp session, GET request and JSON decoding of `_get_symbol_exchange_rate`: network I/O, replaced by the `fetch` parameter, which reports a reply, a failure while reading the body, or a failure of the GET itself. Which aiohttp error class the GET raises, and its message, are not modelled.
- The pydantic validation of venue replies: a library call. Its `ValidationError` for a malformed body is not modelled; a reply is a record or one of the two request failures.
- Decimal context details: `1 / price` is rounded to 28 significant digits before quantizing, and `quantize` raises `InvalidOperation` when the result needs more than 28 digits. The model divides exactly over `real` and never overflows, so a tie created only by the 28-digit rounding is not reproduced. Prices are finite reals; NaN and infinities are not modelled.
- `Text.Upper`: upper-cases ASCII letters only; Python's `str.upper` also maps other Unicode letters, some to longer strings.
- The service stub `app/exchange_rates/services/exchange_rates.py`: it returns a constant response, so there is nothing to model.
- Caching, fallback across venues and the intermediary-currency bridge exercised by `app/exchange_rates/tests/test_exchange_rates_service.py`: the code they test is not part of this model, and the cache is Redis I/O.
- `ExchangeRequest`/`ExchangeResponse` schemas, routing, application start-up and test fixtures: HTTP plumbing with no decision logic.
- Venue replies are taken not to change between the two requests of one lookup: `fetch` is a function, so when the inverted symbol equals the direct one (`currency_from == currency_to`, or Binance codes whose concatenations commute, such as `AB`/`ABAB`), the second request reads the first reply, whereas the code sends a second, independent GET.
- Async/await: each manager call is modelled as one sequential function, since no two requests overlap.

=== FILE: decimals.dfy ===
/** Rates with exactly four fractional digits, and the quantization that
    produces them: `Decimal.quantize(Decimal("1.0000"))` under the default
    decimal context, whose rounding mode is round-half-even. */
module Decimals {

  /** A rate with exactly four fractional digits, held as a count of
      ten-thousandths. */
  datatype Rate4 = Rate4(units: int) {
    function Value(): real {
      units as real / 10000.0
    }
  }

  /** `n` is the integer nearest to `y`, ties going to the even neighbour. */
  ghost predicate NearestHalfEven(y: real, n: int) {
    var d := y - n as real;
    (-0.5 < d < 0.5) || ((d == 0.5 || d == -0.5) && n % 2 == 0)
  }

  /** Round-half-even to an integer. */
  function RoundHalfEven(y: real): (n: int)
    ensures NearestHalfEven(y, n)
  {
    var f := y.Floor;
    var d := y - f as real;
    if d < 0.5 then f
    else if d > 0.5 then f + 1
    else if f % 2 == 0 then f
    else f + 1
  }

  /** At most one integer is the half-even nearest of a given real. */
  lemma RoundHalfEvenUnique(y: real, m: int, n: int)
    requires NearestHalfEven(y, m) && NearestHalfEven(y, n)
    ensures m == n
  {
  }

  /** Quantization to four fractional digits: the result is the half-even
      nearest four-digit value, hence within half a ten-thousandth of `x`. */
  function Quantize(x: real): (q: Rate4)
    ensures NearestHalfEven(x * 10000.0, q.units)
    ensures -0.00005 <= q.Value() - x <= 0.00005
  {
    Rate4(RoundHalfEven(x * 10000.0))
  }

  /** Quantizing a value that already has four fractional digits leaves it
      unchanged. */
  lemma QuantizeIdempotent(q: Rate4)
    ensures Quantize(q.Value()) == q
  {
    assert q.Value() * 10000.0 == q.units as real;
    RoundHalfEvenUnique(q.Value() * 10000.0, Quantize(q.Value()).units, q.units);
  }

  /** Quantization preserves order. */
  lemma QuantizeMonotone(x: real, y: real)
    requires x <= y
    ensures Quantize(x).units <= Quantize(y).units
  {
    var m, n := Quantize(x).units, Quantize(y).units;
    if n < m {
      assert x * 10000.0 <= y * 10000.0;
      assert x * 10000.0 == y * 10000.0;
      RoundHalfEvenUnique(x * 10000.0, m, n);
    }
  }

  /** Every value in [0, 0.00005] quantizes to zero; 0.00005 itself is a
      tie and goes to the even neighbour 0. */
  lemma QuantizeVanishes(x: real)
    requires 0.0 <= x <= 0.00005
    ensures Quantize(x) == Rate4(0)
  {
    assert 0.0 <= x * 10000.0 <= 0.5;
    RoundHalfEvenUnique(x * 10000.0, Quantize(x).units, 0);
  }
}

=== FILE: exceptions.dfy ===
/** The failures a rate lookup can end in: the application's own exception
    classes, the decimal trap that a zero inverse price trips, and the
    aiohttp error of a failed GET, which nothing wraps. */
module Exceptions {

  datatype Failure =
    /** The venue did not answer with a readable body. */
    | ExchangeRequestException(message: string)
    /** The venue quotes the pair in neither direction. */
    | PairNotFoundException(message: string)
    /** The service layer's own failure; no manager raises it. */
    | ExchangeRatesServiceException(message: string)
    /** `decimal.DivisionByZero`, raised by `1 / Decimal(0)` under the
        default context, which traps division by zero. */
    | DecimalDivisionByZero
    /** An aiohttp error raised by the GET request itself, which the
        request helper does not catch. */
    | AiohttpRequestError
  {
    /** Both request and pair-not-found failures derive from `ManagerException`;
        the service exception, the decimal trap and the aiohttp error do not. */
    predicate IsManagerException() {
      ExchangeRequestException? || PairNotFoundException?
    }

    /** Same exception class, whatever the message. */
    predicate SameClass(other: Failure) {
      match (this, other)
      case (ExchangeRequestException(_), ExchangeRequestException(_)) => true
      case (PairNotFoundException(_), PairNotFoundException(_)) => true
      case (ExchangeRatesServiceException(_), ExchangeRatesServiceException(_)) => true
      case (DecimalDivisionByZero, DecimalDivisionByZero) => true
      case (AiohttpRequestError, AiohttpRequestError) => true
      case _ => false
    }
  }
}

=== FILE: manager_properties.dfy ===
/** Properties that relate several manager calls: the two venues agree when
    their answers agree, the currency codes' case does not matter, a pair
    and its reverse read the same quote, and what the symbol formats can and
    cannot tell apart. */
module ManagerProperties {
  import opened Results
  import opened Exceptions
  import opened Schemes
  import opened Text
  import opened Decimals
  import opened Managers

  /** Two attempts reach the same rate, or fail with the same exception
      class (messages may differ, e.g. in the venue name). */
  predicate SameVerdict(a: Attempt, b: Attempt) {
    match (a.outcome, b.outcome)
    case (Ok(x), Ok(y)) => x == y
    case (Err(e), Err(f)) => e.SameClass(f)
    case _ => false
  }

  /** The managers differ only in the separator: when Binance and KuCoin
      answer alike for the direct and for the inverted pair, they return
      the same rate, or fail alike, after the same number of requests. */
  lemma VenuesAgree(currencyFrom: string, currencyTo: string,
                    binance: string -> Response<BinanceReply>, kucoin: string -> Response<KuCoinReply>)
    requires QuoteOf(binance, BinancePrice, Upper(currencyFrom + currencyTo))
          == QuoteOf(kucoin, KuCoinPrice, Upper(currencyFrom + "-" + currencyTo))
    requires QuoteOf(binance, BinancePrice, Upper(currencyTo + currencyFrom))
          == QuoteOf(kucoin, KuCoinPrice, Upper(currencyTo + "-" + currencyFrom))
    ensures |BinanceGetExchangeRate(currencyFrom, currencyTo, binance).queried|
         == |KuCoinGetExchangeRate(currencyFrom, currencyTo, kucoin).queried|
    ensures SameVerdict(BinanceGetExchangeRate(currencyFrom, currencyTo, binance),
                        KuCoinGetExchangeRate(currencyFrom, currencyTo, kucoin))
  {
    assert Symbol(Binance, currencyFrom, currencyTo) == currencyFrom + currencyTo;
    assert Symbol(Binance, currencyTo, currencyFrom) == currencyTo + currencyFrom;
    assert Symbol(KuCoin, currencyFrom, currencyTo) == currencyFrom + "-" + currencyTo;
    assert Symbol(KuCoin, currencyTo, currencyFrom) == currencyTo + "-" + currencyFrom;
    SameQuotesSameVerdict(Binance, currencyFrom, currencyTo, binance, BinancePrice,
                          KuCoin, currencyFrom, currencyTo, kucoin, KuCoinPrice);
  }

  /** A lookup's verdict depends only on what the venue says about the
      direct and the inverted symbol: two lookups that read the same two
      quotes make the same number of requests and reach the same verdict,
      whatever the venue, the codes or the reply format. */
  lemma SameQuotesSameVerdict<R, S>(v: Venue, from: string, to: string,
                                    fetch: string -> Response<R>, priceOf: R -> Option<real>,
                                    w: Venue, from': string, to': string,
                                    fetch': string -> Response<S>, priceOf': S -> Option<real>)
    requires QuoteOf(fetch, priceOf, Upper(Symbol(v, from, to)))
          == QuoteOf(fetch', priceOf', Upper(Symbol(w, from', to')))
    requires QuoteOf(fetch, priceOf, Upper(Symbol(v, to, from)))
          == QuoteOf(fetch', priceOf', Upper(Symbol(w, to', from')))
    ensures |GetExchangeRate(v, from, to, fetch, priceOf).queried|
         == |GetExchangeRate(w, from', to', fetch', priceOf').queried|
    ensures SameVerdict(GetExchangeRate(v, from, to, fetch, priceOf),
                        GetExchangeRate(w, from', to', fetch', priceOf'))
  {
    var a := GetExchangeRate(v, from, to, fetch, priceOf);
    var b := GetExchangeRate(w, from', to', fetch', priceOf');
    match QuoteOf(fetch, priceOf, a.queried[0])
    case Quoted(p) =>
      assert a.outcome == b.outcome;
    case Unreadable =>
      assert a.outcome.error.SameClass(b.outcome.error);
    case Unconnected =>
      assert a.outcome == b.outcome;
    case Unquoted =>
      assert |a.queried| == |b.queried| == 2;
      match QuoteOf(fetch, priceOf, a.queried[1])
      case Quoted(p) =>
        assert a.outcome == b.outcome;
      case Unquoted =>
        assert a.outcome.error.PairNotFoundException? && b.outcome.error.PairNotFoundException?;
      case Unreadable =>
        assert a.outcome == b.outcome;
      case Unconnected =>
        assert a.outcome == b.outcome;
  }

  /** Currency codes that upper-case alike ask the venue for the same
      symbols and reach the same verdict; only the pair-not-found message,
      which quotes the codes as given, can differ. */
  lemma CaseInsensitive<R>(v: Venue, currencyFrom: string, currencyTo: string,
                           currencyFrom': string, currencyTo': string,
                           fetch: string -> Response<R>, priceOf: R -> Option<real>)
    requires Upper(currencyFrom) == Upper(currencyFrom')
    requires Upper(currencyTo) == Upper(currencyTo')
    ensures GetExchangeRate(v, currencyFrom, currencyTo, fetch, priceOf).queried
         == GetExchangeRate(v, currencyFrom', currencyTo', fetch, priceOf).queried
    ensures SameVerdict(GetExchangeRate(v, currencyFrom, currencyTo, fetch, priceOf),
                        GetExchangeRate(v, currencyFrom', currencyTo', fetch, priceOf))
  {
    var a := GetExchangeRate(v, currencyFrom, currencyTo, fetch, priceOf);
    var b := GetExchangeRate(v, currencyFrom', currencyTo', fetch, priceOf);
    assert Upper(Symbol(v, currencyFrom, currencyTo)) == Upper(Symbol(v, currencyFrom', currencyTo')) by {
      SymbolUpper(v, currencyFrom, currencyTo);
      SymbolUpper(v, currencyFrom', currencyTo');
    }
    assert Upper(Symbol(v, currencyTo, currencyFrom)) == Upper(Symbol(v, currencyTo', currencyFrom')) by {
      SymbolUpper(v, currencyTo, currencyFrom);
      SymbolUpper(v, currencyTo', currencyFrom');
    }
    SameQuotesSameVerdict(v, currencyFrom, currencyTo, fetch, priceOf,
                          v, currencyFrom', currencyTo', fetch, priceOf);
    TracesAgree(a.queried, b.queried);
  }

  /** Two request traces of at most two symbols, of equal length and equal
      entry by entry, are the same trace. */
  lemma TracesAgree(s: seq<string>, t: seq<string>)
    requires 1 <= |s| == |t| <= 2
    requires s[0] == t[0]
    requires |s| == 2 ==> s[1] == t[1]
    ensures s == t
  {
    if |s| == 1 {
      assert s == [s[0]] && t == [t[0]];
    } else {
      assert s == [s[0], s[1]] && t == [t[0], t[1]];
    }
  }

  /** Upper-casing a symbol upper-cases each code and keeps the separator. */
  lemma SymbolUpper(v: Venue, base: string, quote: string)
    ensures Upper(Symbol(v, base, quote)) == Symbol(v, Upper(base), Upper(quote))
  {
    match v
    case Binance =>
      UpperAppend(base, quote);
    case KuCoin =>
      UpperAppend(base + "-", quote);
      UpperAppend(base, "-");
      assert Upper("-") == "-";
  }

  /** When a venue quotes only the pair `b`/`a`, at price p, asking for
      a -> b and for b -> a reads the same quote: b -> a gets quantize(p)
      in one request, a -> b gets quantize(1/p) in two. */
  lemma ReversedPair<R>(v: Venue, a: string, b: string,
                        fetch: string -> Response<R>, priceOf: R -> Option<real>, p: real)
    requires QuoteOf(fetch, priceOf, Upper(Symbol(v, a, b))) == Unquoted
    requires QuoteOf(fetch, priceOf, Upper(Symbol(v, b, a))) == Quoted(p)
    requires p != 0.0
    ensures GetExchangeRate(v, b, a, fetch, priceOf).outcome == Ok(Quantize(p))
    ensures GetExchangeRate(v, a, b, fetch, priceOf).outcome == Ok(Quantize(1.0 / p))
    ensures GetExchangeRate(v, b, a, fetch, priceOf).queried
         == GetExchangeRate(v, a, b, fetch, priceOf).queried[1..]
  {
  }

  /** A rate resolved through the inverted symbol is 0.0000 whenever the
      inverse price is at least 20000: 1/p is then at most 0.00005 and
      quantizes to zero. The rate of a cheap coin in an expensive one
      (USDT -> BTC, say) is therefore reported as zero. */
  lemma InverseRateVanishes<R>(v: Venue, currencyFrom: string, currencyTo: string,
                               fetch: string -> Response<R>, priceOf: R -> Option<real>, p: real)
    requires QuoteOf(fetch, priceOf, Upper(Symbol(v, currencyFrom, currencyTo))) == Unquoted
    requires QuoteOf(fetch, priceOf, Upper(Symbol(v, currencyTo, currencyFrom))) == Quoted(p)
    requires p >= 20000.0
    ensures GetExchangeRate(v, currencyFrom, currencyTo, fetch, priceOf).outcome == Ok(Rate4(0))
  {
    assert 0.0 < 1.0 / p <= 0.00005 by {
      assert (1.0 / p) * p == 1.0;
      assert (1.0 / p) * 20000.0 <= (1.0 / p) * p;
    }
    QuantizeVanishes(1.0 / p);
  }

  /** A KuCoin symbol names one pair: when no code contains a dash, equal
      symbols come from equal codes. */
  lemma KuCoinSymbolInjective(a: string, b: string, c: string, d: string)
    requires '-' !in a && '-' !in b && '-' !in c && '-' !in d
    requires Symbol(KuCoin, a, b) == Symbol(KuCoin, c, d)
    ensures a == c && b == d
  {
    var s := Symbol(KuCoin, a, b);
    DashMarksBase(a, b);
    DashMarksBase(c, d);
    if |a| < |c| {
      assert false;
    } else if |c| < |a| {
      assert false;
    }
    assert a == s[..|a|] == c;
    assert b == s[|a| + 1..] == d;
  }

  /** In a KuCoin symbol whose base has no dash, the first dash ends the base. */
  lemma DashMarksBase(base: string, quote: string)
    requires '-' !in base
    ensures Symbol(KuCoin, base, quote)[|base|] == '-'
    ensures forall i :: 0 <= i < |base| ==> Symbol(KuCoin, base, quote)[i] != '-'
  {
    var s := Symbol(KuCoin, base, quote);
    forall i | 0 <= i < |base|
      ensures s[i] != '-'
    {
      assert s[i] == base[i];
    }
  }

  /** A Binance symbol does not name one pair: any two code splits of the
      same concatenation ask for the same direct symbol, so whenever the
      venue quotes it at p, both pairs get quantize(p). */
  lemma BinanceSymbolAmbiguous(a: string, b: string, c: string, d: string,
                               fetch: string -> Response<BinanceReply>, p: real)
    requires a + b == c + d
    requires QuoteOf(fetch, BinancePrice, Upper(a + b)) == Quoted(p)
    ensures GetExchangeRate(Binance, a, b, fetch, BinancePrice).outcome == Ok(Quantize(p))
    ensures GetExchangeRate(Binance, c, d, fetch, BinancePrice).outcome == Ok(Quantize(p))
  {
    assert Symbol(Binance, a, b) == a + b;
    assert Symbol(Binance, c, d) == c + d;
  }

  /** Distinct splits of one Binance symbol exist: BTC/USDT and BTCU/SDT. */
  lemma BinanceSymbolSplits()
    ensures "BTC" + "USDT" == "BTCU" + "SDT"
    ensures "BTC" != "BTCU"
  {
  }
}

=== FILE: managers.dfy ===
/** The per-venue exchange-rate managers. Each builds a venue symbol from
    the two currency codes, asks the venue once for that symbol, and, when
    the venue quotes no price, asks once more for the inverted symbol and
    takes the reciprocal. The result is quantized to four fractional digits.

    The HTTP round trip is a parameter `fetch` from the upper-cased symbol
    to the validated reply, a failure while reading the body, or a failure
    of the GET itself, so every manager here is a pure function of the
    currency codes and the venue's answers. */
module Managers {
  import opened Results
  import opened Exceptions
  import opened Schemes
  import opened Text
  import opened Decimals

  datatype Venue = Binance | KuCoin

  /** The venue's name as it appears in the pair-not-found message. */
  function VenueName(v: Venue): string {
    match v
    case Binance => "Binance"
    case KuCoin => "KuCoin"
  }

  /** The venue symbol for converting `base` into `quote`: Binance
      concatenates the codes, KuCoin joins them with a dash. */
  function Symbol(v: Venue, base: string, quote: string): (symbol: string)
    ensures |symbol| == |base| + (if v == KuCoin then 1 else 0) + |quote|
    ensures symbol[..|base|] == base
    ensures symbol[|symbol| - |quote|..] == quote
    ensures v == KuCoin ==> symbol[|base|] == '-'
  {
    match v
    case Binance => base + quote
    case KuCoin => base + "-" + quote
  }

  /** The request URL template of each venue, up to its `%s` placeholder,
      which is the template's last character pair. */
  function UrlPrefix(v: Venue): string {
    match v
    case Binance => "https://api.binance.com/api/v3/ticker/price?symbol="
    case KuCoin => "https://api.kucoin.com/api/v1/market/orderbook/level1?symbol="
  }

  /** The URL requested for a symbol: the template filled with the symbol
      upper-cased. */
  function RequestUrl(v: Venue, symbol: string): (url: string)
    ensures |url| == |UrlPrefix(v)| + |symbol|
    ensures url[..|UrlPrefix(v)|] == UrlPrefix(v)
    ensures url[|UrlPrefix(v)|..] == Upper(symbol)
  {
    var url := UrlPrefix(v) + Upper(symbol);
    assert url[|UrlPrefix(v)|..] == Upper(symbol);
    url
  }

  /** Two symbols give the same URL exactly when they upper-case alike, so
      a venue's answers can be keyed by the upper-cased symbol without loss. */
  lemma RequestUrlKeyedBySymbol(v: Venue, s: string, t: string)
    ensures RequestUrl(v, s) == RequestUrl(v, t) <==> Upper(s) == Upper(t)
  {
    if RequestUrl(v, s) == RequestUrl(v, t) {
      assert Upper(s) == RequestUrl(v, s)[|UrlPrefix(v)|..];
    }
  }

  /** What the HTTP layer hands back: the reply body, already validated
      into the venue's record; an `aiohttp.ClientError` raised while
      reading that body; or an aiohttp error raised by the GET itself
      (a refused connection, say), before there is a body to read. */
  datatype Response<R> = Received(body: R) | BodyReadFailed | GetFailed

  const NotRespondingMessage: string :=
    "Unable to fetch exchange data, exchange not responding"

  const PairNotFoundPrefix: string := "Exchange rate for conversion pair "

  /** The pair-not-found message: a fixed prefix, the source code as given,
      an arrow, the target code as given, and the venue's name. */
  function PairNotFoundMessage(currencyFrom: string, currencyTo: string, v: Venue): (m: string)
    ensures |m| == |PairNotFoundPrefix| + |currencyFrom| + 4 + |currencyTo| + 14 + |VenueName(v)|
    ensures m[..|PairNotFoundPrefix|] == PairNotFoundPrefix
    ensures m[|PairNotFoundPrefix|..|PairNotFoundPrefix| + |currencyFrom|] == currencyFrom
    ensures m[|PairNotFoundPrefix| + |currencyFrom|..|m| - 14 - |VenueName(v)|] == " -> " + currencyTo
    ensures m[|m| - 14 - |VenueName(v)|..|m| - |VenueName(v)|] == " not found on "
    ensures m[|m| - |VenueName(v)|..] == VenueName(v)
  {
    PairNotFoundPrefix + currencyFrom + " -> " + currencyTo
      + " not found on " + VenueName(v)
  }

  /** The message tells the venues apart: Binance's and KuCoin's
      pair-not-found messages differ for every pair of codes. */
  lemma PairNotFoundMessageNamesVenue(from: string, to: string, from': string, to': string)
    ensures PairNotFoundMessage(from, to, Binance) != PairNotFoundMessage(from', to', KuCoin)
  {
    var b, k := PairNotFoundMessage(from, to, Binance), PairNotFoundMessage(from', to', KuCoin);
    assert b[|b| - 1] == VenueName(Binance)[6] == 'e';
    assert k[|k| - 1] == VenueName(KuCoin)[5] == 'n';
  }

  /** What one lookup of an upper-cased symbol tells the manager. */
  datatype Quote = Unreadable | Unconnected | Unquoted | Quoted(price: real)

  function QuoteOf<R>(fetch: string -> Response<R>, priceOf: R -> Option<real>, symbol: string): Quote {
    match fetch(symbol)
    case BodyReadFailed => Unreadable
    case GetFailed => Unconnected
    case Received(body) =>
      match priceOf(body)
      case None => Unquoted
      case Some(p) => Quoted(p)
  }

  /** `_get_symbol_exchange_rate`: the venue is asked for the upper-cased
      symbol only; a client error while reading the body becomes
      `ExchangeRequestException`, while an error of the GET itself is not
      caught and escapes as it is. */
  function FetchSymbol<R>(symbol: string, fetch: string -> Response<R>): (r: Result<R, Failure>)
    ensures r.Ok? <==> fetch(Upper(symbol)).Received?
    ensures r.Ok? ==> r.value == fetch(Upper(symbol)).body
    ensures fetch(Upper(symbol)).BodyReadFailed? ==>
      r == Err(ExchangeRequestException(NotRespondingMessage))
    ensures fetch(Upper(symbol)).GetFailed? ==> r == Err(AiohttpRequestError)
    ensures r.Err? ==> (r.error.IsManagerException() <==> fetch(Upper(symbol)).BodyReadFailed?)
  {
    match fetch(Upper(symbol))
    case Received(body) => Ok(body)
    case BodyReadFailed => Err(ExchangeRequestException(NotRespondingMessage))
    case GetFailed => Err(AiohttpRequestError)
  }

  /** The outcome of one `get_exchange_rate` call, together with the
      upper-cased symbols the venue was asked for, in order. */
  datatype Attempt = Attempt(outcome: Result<Rate4, Failure>, queried: seq<string>)

  /** The lookup shared by both managers: direct symbol first, inverted
      symbol only when the direct one has no price.
      - at most two lookups, the direct symbol first, the inverse second;
      - the inverse is asked exactly when the direct reply has no price;
      - a direct price p gives quantize(p); an inverse price p gives
        quantize(1/p), and 1/0 trips the decimal trap;
      - pair-not-found exactly when neither reply has a price;
      - a failed request stops the lookup at once: a body-read error as
        `ExchangeRequestException`, a GET error unwrapped;
      - every failure is a `ManagerException`, the decimal trap or the
        unwrapped GET error. */
  function GetExchangeRate<R>(v: Venue, currencyFrom: string, currencyTo: string,
                              fetch: string -> Response<R>, priceOf: R -> Option<real>): (a: Attempt)
    ensures 1 <= |a.queried| <= 2
    ensures a.queried[0] == Upper(Symbol(v, currencyFrom, currencyTo))
    ensures |a.queried| == 2 <==> QuoteOf(fetch, priceOf, a.queried[0]).Unquoted?
    ensures |a.queried| == 2 ==> a.queried[1] == Upper(Symbol(v, currencyTo, currencyFrom))
    ensures QuoteOf(fetch, priceOf, a.queried[0]).Quoted? ==>
      a.outcome == Ok(Quantize(QuoteOf(fetch, priceOf, a.queried[0]).price))
    ensures |a.queried| == 2 && QuoteOf(fetch, priceOf, a.queried[1]).Quoted? ==>
      var p := QuoteOf(fetch, priceOf, a.queried[1]).price;
      a.outcome == if p == 0.0 then Err(DecimalDivisionByZero) else Ok(Quantize(1.0 / p))
    ensures QuoteOf(fetch, priceOf, a.queried[|a.queried| - 1]).Unreadable? <==>
      a.outcome == Err(ExchangeRequestException(NotRespondingMessage))
    ensures QuoteOf(fetch, priceOf, a.queried[|a.queried| - 1]).Unconnected? <==>
      a.outcome == Err(AiohttpRequestError)
    ensures a.outcome.Err? && a.outcome.error.PairNotFoundException? <==>
      |a.queried| == 2 && QuoteOf(fetch, priceOf, a.queried[1]).Unquoted?
    ensures a.outcome.Err? && a.outcome.error.PairNotFoundException? ==>
      a.outcome.error.message == PairNotFoundMessage(currencyFrom, currencyTo, v)
    ensures a.outcome.Err? ==>
      a.outcome.error.IsManagerException()
      || a.outcome.error == DecimalDivisionByZero
      || a.outcome.error == AiohttpRequestError
  {
    var direct := Symbol(v, currencyFrom, currencyTo);
    match FetchSymbol(direct, fetch)
    case Err(e) => Attempt(Err(e), [Upper(direct)])
    case Ok(reply) =>
      if priceOf(reply).Some? then
        Attempt(Ok(Quantize(priceOf(reply).value)), [Upper(direct)])
      else
        var inverse := Symbol(v, currencyTo, currencyFrom);
        var queried := [Upper(direct), Upper(inverse)];
        match FetchSymbol(inverse, fetch)
        case Err(e) => Attempt(Err(e), queried)
        case Ok(reply') =>
          match priceOf(reply')
          case None =>
            Attempt(Err(PairNotFoundException(PairNotFoundMessage(currencyFrom, currencyTo, v))), queried)
          case Some(p) =>
            if p == 0.0 then Attempt(Err(DecimalDivisionByZero), queried)
            else Attempt(Ok(Quantize(1.0 / p)), queried)
  }

  /** `BinanceManager.get_exchange_rate`, in the venue's own terms: the
      symbol `from ++ to` is asked first, `to ++ from` only when the first
      reply carries no `price`. */
  function BinanceGetExchangeRate(currencyFrom: string, currencyTo: string,
                                  fetch: string -> Response<BinanceReply>): (a: Attempt)
    ensures 1 <= |a.queried| <= 2
    ensures a.queried[0] == Upper(currencyFrom + currencyTo)
    ensures |a.queried| == 2 <==>
      fetch(a.queried[0]).Received? && fetch(a.queried[0]).body.price.None?
    ensures |a.queried| == 2 ==> a.queried[1] == Upper(currencyTo + currencyFrom)
    ensures fetch(a.queried[0]).Received? && fetch(a.queried[0]).body.price.Some? ==>
      a.outcome == Ok(Quantize(fetch(a.queried[0]).body.price.value))
    ensures |a.queried| == 2 && fetch(a.queried[1]).Received? && fetch(a.queried[1]).body.price.Some? ==>
      var p := fetch(a.queried[1]).body.price.value;
      a.outcome == if p == 0.0 then Err(DecimalDivisionByZero) else Ok(Quantize(1.0 / p))
    ensures a.outcome == Err(PairNotFoundException(PairNotFoundMessage(currencyFrom, currencyTo, Binance))) <==>
      |a.queried| == 2 && fetch(a.queried[1]).Received? && fetch(a.queried[1]).body.price.None?
    ensures a.outcome == Err(ExchangeRequestException(NotRespondingMessage)) <==>
      fetch(a.queried[|a.queried| - 1]).BodyReadFailed?
    ensures a.outcome == Err(AiohttpRequestError) <==> fetch(a.queried[|a.queried| - 1]).GetFailed?
  {
    GetExchangeRate(Binance, currencyFrom, currencyTo, fetch, BinancePrice)
  }

  /** `KuCoinManager.get_exchange_rate`, in the venue's own terms: the
      symbol `from-to` is asked first, `to-from` only when the first reply
      carries no `data`. */
  function KuCoinGetExchangeRate(currencyFrom: string, currencyTo: string,
                                 fetch: string -> Response<KuCoinReply>): (a: Attempt)
    ensures 1 <= |a.queried| <= 2
    ensures a.queried[0] == Upper(currencyFrom + "-" + currencyTo)
    ensures |a.queried| == 2 <==>
      fetch(a.queried[0]).Received? && fetch(a.queried[0]).body.data.None?
    ensures |a.queried| == 2 ==> a.queried[1] == Upper(currencyTo + "-" + currencyFrom)
    ensures fetch(a.queried[0]).Received? && fetch(a.queried[0]).body.data.Some? ==>
      a.outcome == Ok(Quantize(fetch(a.queried[0]).body.data.value.price))
    ensures |a.queried| == 2 && fetch(a.queried[1]).Received? && fetch(a.queried[1]).body.data.Some? ==>
      var p := fetch(a.queried[1]).body.data.value.price;
      a.outcome == if p == 0.0 then Err(DecimalDivisionByZero) else Ok(Quantize(1.0 / p))
    ensures a.outcome == Err(PairNotFoundException(PairNotFoundMessage(currencyFrom, currencyTo, KuCoin))) <==>
      |a.queried| == 2 && fetch(a.queried[1]).Received? && fetch(a.queried[1]).body.data.None?
    ensures a.outcome == Err(ExchangeRequestException(NotRespondingMessage)) <==>
      fetch(a.queried[|a.queried| - 1]).BodyReadFailed?
    ensures a.outcome == Err(AiohttpRequestError) <==> fetch(a.queried[|a.queried| - 1]).GetFailed?
  {
    GetExchangeRate(KuCoin, currencyFrom, currencyTo, fetch, KuCoinPrice)
  }
}

=== FILE: results.dfy ===
/** Optional values and success-or-failure values, the two shapes the
    managers' answers take: a venue field that may be missing, and a call
    that either returns or raises. */
module Results {

  /** A value that may be absent (Python's `X | None`). */
  datatype Option<+T> = None | Some(value: T)

  /** A call that returns `value` or raises `error`. */
  datatype Result<+T, +E> = Ok(value: T) | Err(error: E)
}

=== FILE: schemes.dfy ===
/** The venue reply bodies, as validated into records. Only the price (or
    its absence) is read by the managers; the other fields are carried so
    that the records match the venues' documents. */
module Schemes {
  import opened Results

  /** Binance `ticker/price` reply. An unknown symbol yields a body with
      `code` and `msg` and no `price`. */
  datatype BinanceReply = BinanceReply(
    price: Option<real>,
    symbol: Option<string>,
    code: Option<int>,
    msg: Option<string>)

  /** The `data` object of a KuCoin level-1 order book reply. Its `price`
      is mandatory, so a present `data` always carries a price. */
  datatype KuCoinTicker = KuCoinTicker(
    bestAsk: real,
    bestAskSize: real,
    bestBid: real,
    bestBidSize: real,
    price: real,
    sequence: string,
    size: real,
    time: int)

  /** KuCoin reply: `data` is null when the symbol is unknown. */
  datatype KuCoinReply = KuCoinReply(code: Option<string>, data: Option<KuCoinTicker>)

  /** The price a Binance reply quotes, if any. */
  function BinancePrice(reply: BinanceReply): Option<real> {
    reply.price
  }

  /** The price a KuCoin reply quotes: the ticker's price when `data` is present. */
  function KuCoinPrice(reply: KuCoinReply): Option<real> {
    match reply.data
    case None => None
    case Some(ticker) => Some(ticker.price)
  }
}

=== FILE: text.dfy ===
/** Upper-casing of venue symbols, as applied before every request. */
module Text {

  predicate IsLowerAscii(c: char) {
    'a' <= c <= 'z'
  }

  /** ASCII upper-casing of one character; every other character is kept. */
  function UpperChar(c: char): char {
    if IsLowerAscii(c) then (c as int - 32) as char else c
  }

  /** `str.upper()` over ASCII: the same length, each character upper-cased,
      and no lower-case ASCII letter left. */
  function Upper(s: string): (u: string)
    ensures |u| == |s|
    ensures forall i :: 0 <= i < |s| ==> u[i] == UpperChar(s[i])
    ensures forall i :: 0 <= i < |u| ==> !IsLowerAscii(u[i])
  {
    if s == [] then [] else [UpperChar(s[0])] + Upper(s[1..])
  }

  /** Upper-casing works character by character, so it distributes over
      concatenation. */
  lemma {:induction false} UpperAppend(a: string, b: string)
    ensures Upper(a + b) == Upper(a) + Upper(b)
  {
    var l, r := Upper(a + b), Upper(a) + Upper(b);
    assert |l| == |r|;
    forall i | 0 <= i < |l|
      ensures l[i] == r[i]
    {
      if i < |a| {
        assert (a + b)[i] == a[i];
      } else {
        assert (a + b)[i] == b[i - |a|];
      }
    }
  }

  /** Upper-casing twice is upper-casing once. */
  lemma {:induction false} UpperIdempotent(s: string)
    ensures Upper(Upper(s)) == Upper(s)
  {
    var u := Upper(s);
    forall i | 0 <= i < |u|
      ensures Upper(u)[i] == u[i]
    {
      assert !IsLowerAscii(u[i]);
    }
  }
}
